=== FILE: README.md ===
# Sparse-rank ordering engine: a Dafny model

This project models the ordering engine of a drag-and-drop lists-and-items app. The app keeps
its lists, and the items inside each list, in an order the user picks. Every list and item
carries an integer `orderRank`. An element is sorted by that rank within its scope. A scope is
either all lists, or the items of one list.

The model has three parts:

- **Rank arithmetic** (`Ranking`, from `src/lib/ranking.ts`).
  - `MidRank` finds an integer strictly between two optional neighbour ranks. When there is none it reports `Collision`. The source signals that case with `NaN`. The exception is the head of a scope: before a first rank of 1 it returns 1 and reports no collision (see "## Findings").
  - `InitialRanks` and `ReindexCollection` renumber a scope with evenly spaced ranks. `ReindexCollection` is a method that rewrites the `orderRank` field of each record object in place.
  - `NeedsReindex` is the advisory scan for a used-up gap. It is a method with a loop and an early return.
- **Scope and neighbour resolution** (`Db`, from `src/lib/db.ts`).
  - The store read becomes a `DB` value parameter.
  - `GetNeighbors` sorts the scope by rank and turns a `beforeId` or `afterId` anchor into optional left and right ranks.
  - `GetNextOrderRank` gives the rank used to append at the end of a scope.
- **Client anchor derivation** (`Reorder`, `ItemsPanel` and `ListsPanel`, from the `handleDragEnd` handlers of the two draggable panels).
  - `ArrayMove` computes the final order.
  - The dragged element's final predecessor becomes `beforeId` and its final successor becomes `afterId`.
  - `DragProtocol` proves that the two halves fit together. Suppose the panel shows the scope in the server's rank order. Then the anchors it sends resolve on the server to exactly the ranks of the dragged element's final predecessor and successor.

`Wrappers` holds `Option`, JavaScript truthiness of an optional string, and `IndexOf`, which models `findIndex` (it returns -1 when the key is missing). `Types` holds the records of `src/lib/types.ts`.

Two details of the allocator, as the code has them:

- For head insertion, the code replaces only a zero half with 1 (`|| 1`). Before a first rank of 0 or less, the result is negative and is not clamped to 1.
- Between two neighbours the result is the rounded-down midpoint: `midRank(100, 102)` is 101.

## Model

| member | source | states |
|---|---|---|
| `Ranking.InitialRanks` | src/lib/ranking.ts:3-5 | the result has length `n`, and element `i` is `(i+1)*step` |
| `Ranking.InitialRanksSpacing` | src/lib/ranking.ts:3-5 | fresh ranks start at `step`, and consecutive fresh ranks differ by exactly `step` |
| `Ranking.MidRank` | src/lib/ranking.ts:7-17 | no neighbours: `step`. Head: never a collision; in `[1, right-1]` once `right >= 2`; the rounded-down half of `right-1` for `right >= 3` and for `right <= 0` (a negative rank there); 1 for `right` of 1 or 2. Tail: exactly `step` above `left`. Both: a collision exactly when `right-left <= 1`; otherwise strictly between and the rounded-down midpoint |
| `Ranking.AllocatorExamples` | src/lib/ranking.ts:1-17 | with the default step of 1024: empty scope gives 1024; head before 100 gives 49, before 2 gives 1 and before 0 gives -1; tail after 100 gives 1124; (100,102) gives 101; (100,101) is a collision |
| `Ranking.HeadInsertBeforeRankOneTies` | src/lib/ranking.ts:13 | head insertion before a first rank of 1 returns 1. The new element ties with the head and no collision is reported |
| `Ranking.MidRankStrict` | src/lib/ranking.ts:12-16 | the corrected allocator: a collision exactly when two present neighbours differ by at most 1, or when the first rank is at most 1 at the head; a head rank is at least 1 |
| `Ranking.MidRankStrictBetween` | src/lib/ranking.ts:12-16 | for a positive step, any rank the corrected allocator returns lies strictly between the neighbours it was given |
| `Ranking.NeedsReindex` | src/lib/ranking.ts:19-24 | true exactly when some adjacent pair differs by at most 1; false for fewer than two ranks |
| `Ranking.ReindexCollection` | src/lib/ranking.ts:26-30 | in place, only `orderRank` is written. The element at index `idx` gets `(idx+1)*step`, and the last position wins for an object listed twice. For distinct objects the new ranks are exactly `InitialRanks`. The sequence and the other fields are unchanged |
| `Ranking.ReindexLeavesRoom` | src/lib/ranking.ts:15-30 | after renumbering with `step >= 2`, no gap is used up, and `MidRank` succeeds between every adjacent pair |
| `Ranking.CollisionThenReindexScenario` | src/lib/ranking.ts:15-30 | 1024 and 1025 collide; a fresh numbering of two elements is 1024 and 2048; between those ranks `midRank` gives 1536 |
| `Wrappers.IndexOf` | src/lib/db.ts:46 | -1 exactly when the key is absent; otherwise the first index holding the key |
| `Db.FilterItems` | src/lib/db.ts:32-33 | keeps exactly the items of the requested list, or all items when the list id is absent or empty; every kept element is an item; never longer than the input |
| `Db.FilterItemsCounts` | src/lib/db.ts:32-33 | a matching item is kept as many times as it occurs in the store, any other item zero times |
| `Db.FilterItemsSingle` | src/lib/db.ts:32-33 | a one-item input is kept exactly when the item matches |
| `Db.FilterItemsAppend` | src/lib/db.ts:32-33 | filtering distributes over concatenation, so the kept items stay in store order; with `FilterItemsSingle` this determines the whole result |
| `Db.Scope` | src/lib/db.ts:29-35 | `Lists` gives every list in store order; `Items` gives only items: exactly those whose `listId` matches (all items when the list id is absent or empty), each as many times as in the store |
| `Db.InsertByRank` | src/lib/db.ts:30 | inserting into a rank-sorted sequence keeps it sorted and adds exactly one element |
| `Db.SortByRank` | src/lib/db.ts:30-34 | the result is ascending by rank and is a permutation of the input |
| `Db.SortedScope` | src/lib/db.ts:29-35 | the scope `getNeighbors` reads is ascending by rank and holds exactly the scope's elements |
| `Db.ResolveAnchors` | src/lib/db.ts:37-63 | both ranks present: an adjacent pair of the scope. Left only: the last element. Right only: the first element. Both absent exactly when the anchor in force is missing, empty or not in the scope |
| `Db.BeforeAnchorResolves` | src/lib/db.ts:43-53 | `beforeId` found at `i`: `leftRank` is `rank[i]`, and `rightRank` is `rank[i+1]` unless `i` is last |
| `Db.AfterAnchorResolves` | src/lib/db.ts:54-63 | with no usable `beforeId`, `afterId` found at `i`: `rightRank` is `rank[i]`, and `leftRank` is `rank[i-1]` when `i > 0` |
| `Db.BeforeTakesPrecedence` | src/lib/db.ts:43-54 | a truthy `beforeId` decides alone, and `afterId` is ignored |
| `Db.GetNeighbors` | src/lib/db.ts:18-69 | the returned ranks are ranks of scope elements; when both are present, `leftRank <= rightRank` |
| `Db.MaxRank` | src/lib/db.ts:85 | the result is a rank in the scope, and no rank in the scope is larger |
| `Db.GetNextOrderRank` | src/lib/db.ts:71-87 | an empty scope gives 1024; otherwise the largest scope rank plus 1024: it is some scope rank plus 1024, and no scope rank plus 1024 exceeds it |
| `Reorder.ArrayMove` | src/components/DraggableItemsPanel.tsx:263 | a permutation of the input of the same length, with the moved element at `newIndex`; elements between the two positions shift by one and the others stay put |
| `Reorder.ArrayMoveRoundTrip` | src/components/DraggableItemsPanel.tsx:263 | moving back from `newIndex` to `oldIndex` restores the original order |
| `Reorder.ArrayMoveMap` | src/components/DraggableItemsPanel.tsx:263-270 | taking ids after the move is the same as moving the ids |
| `Reorder.ArrayMoveDistinct` | src/components/DraggableItemsPanel.tsx:263 | moving an element of a sequence without repeated elements leaves no repeated elements |
| `Reorder.FinalAnchors` | src/components/DraggableItemsPanel.tsx:270-278 | `beforeId` is present exactly when the moved id is not first, and `afterId` exactly when it is not last; each names the id next to the moved one on that side |
| `Reorder.FinalAnchorsAreDestinationNeighbors` | src/components/DraggableItemsPanel.tsx:263-278 | for distinct ids and `oldIndex != newIndex`: the moved element ends at `newIndex`; its anchors equal the neighbours of the destination in the original order; at least one anchor is present; neither anchor is the moved id |
| `ItemsPanel.HandleDragEnd` | src/components/DraggableItemsPanel.tsx:246-294 | a request exactly when there is a drop target other than the dragged item; it moves the dragged item, always within the panel's own list; its anchors are the destination neighbours, at least one is present, and neither is the dragged item |
| `ListsPanel.HandleDragEnd` | src/components/DraggableListsPanel.tsx:242-286 | a request exactly when there is a drop target other than the dragged list; it carries no scope; its anchors are the destination neighbours, at least one is present, and neither is the dragged list |
| `DragProtocol.AnchorsResolveToFinalNeighbors` | src/lib/db.ts:43-63 | on a scope with distinct non-empty ids, the destination neighbours of a move resolve to the ranks of the moved element's final predecessor and successor; a moved element that ends first gets no left rank |
| `DragProtocol.ItemDropResolvesToFinalNeighbors` | src/components/DraggableItemsPanel.tsx:273-294 | when the panel shows the list's items in the server's rank order, the item request resolves on the server to the ranks of the item's final predecessor and successor; a rank from the corrected allocator places the item strictly between them |
| `DragProtocol.ListDropResolvesToFinalNeighbors` | src/components/DraggableListsPanel.tsx:268-285 | when the panel shows the lists in the server's rank order, the list request resolves on the server to the ranks of the list's final predecessor and successor; a rank from the corrected allocator places the list strictly between them |

## Left out

- The store read and write and id generation (`getDB`, `saveDB`, `generateId` in src/lib/db.ts:6-16) are cookie I/O and `uuid`. The store is a `DB` value parameter, and ids are given.
- The cookie layer (src/lib/cookies.ts, src/lib/client-cookies.ts) is JSON and cookie serialisation with truncation by string length. It is not part of this model.
- The move and delete routes are not modelled: the reindex-and-retry fallback, the version bump and cascade delete. No composed move operation is presented as the app's own behaviour. `DragProtocol` only relates the two halves the panels and `getNeighbors` implement.
- The retry after a collision is not modelled. The move routes renumber their in-memory copy of the scope and then call `getNeighbors` again (src/app/api/items/[id]/move/route.ts:48-63, src/app/api/lists/[id]/move/route.ts:32-43). When the store cookie is set, that call reads the store afresh, before the renumbered ranks are saved, so it sees the old ranks, the retry collides again and `NaN` is stored (saved as `null` in the cookie's JSON). Without the cookie, the route and `getNeighbors` share the one in-memory default store, so the retry does see the renumbered ranks. `Ranking.CollisionThenReindexScenario` is only about rank arithmetic: what the allocator gives on renumbered ranks.
- `Db.Scope`: for items, states which items the scope holds and how often. Their order is stated about `Db.FilterItems` (`FilterItemsAppend`, `FilterItemsSingle`), which the items case returns. Adding that equality to the contract of `Scope` makes the proofs that use `Scope` too expensive.
- The create routes and the database route are HTTP plumbing. Their only ordering content is the call to `getNextOrderRank`, which is modelled.
- The `zod` request schemas, the React hooks (`fetch`, toasts, state), every UI component other than the two anchor computations, and all `console.log` calls are not modelled.
- `DashboardLayout` filters and sorts items before passing them to the panel. `DragProtocol` replaces that step with the hypothesis that the panel shows the scope in the server's rank order.
- Ranks are unbounded integers. JavaScript `number` precision loss above 2^53 and `NaN` ranks written back after a failed retry are not modelled.
- `version` and `updatedAt` are kept in the records, but the ordering code never reads them.
- `Db.SortedScope`: `db.lists.sort` sorts the freshly read store array in place. Here the store is a value, so the sort returns a new sequence and that mutation is not modelled.
- `Db.SortByRank`: states sortedness and permutation. It is an insertion sort that keeps equal ranks in input order, as JavaScript's stable sort does. That stability is not stated as a lemma.
- `ItemsPanel.HandleDragEnd`: requires the dragged id and the drop-target id to be items of the panel, and item ids to be distinct. The sortable context is built from exactly those items. The behaviour of `arrayMove` and `findIndex` for an index of -1 is not modelled, because the `@dnd-kit/sortable` library is not part of this model.
- `ListsPanel.HandleDragEnd`: the same requirements and the same gap as the items panel, for lists.
- `Ranking.ReindexCollection`: models the array of records as a sequence of objects. The `forEach` callback is a `for` loop.

## Findings

| source | as written | input that shows it | evidently intended | confidence | as-written member | corrected member |
|---|---|---|---|---|---|---|
| src/lib/ranking.ts:13 | head insertion returns `Math.floor((right - 1) / 2) \|\| 1`, which is 1 when `right` is 1 | `midRank(undefined, 1)` returns 1, equal to the head's rank, and no collision is reported, so two elements share rank 1 | a rank strictly below the head, or a collision that triggers renumbering | medium, not executed | `Ranking.HeadInsertBeforeRankOneTies` | `Ranking.MidRankStrict` |

=== FILE: db.dfy ===
/**
 * Scope selection and neighbour resolution over one read of the store. The store read
 * is the `db` parameter; nothing here writes.
 */
module Db {
  import opened Wrappers
  import opened Types
  import Ranking

  /** Which ordering axis a request is about: all lists, or the items of one list. */
  datatype Collection = Lists | Items

  /** An element of a scope: a list or an item (the source's `ActionList | ActionItem`). */
  datatype Entry = ListEntry(list: ActionList) | ItemEntry(item: ActionItem) {
    function Id(): ID {
      match this
      case ListEntry(l) => l.id
      case ItemEntry(i) => i.id
    }
    function Rank(): int {
      match this
      case ListEntry(l) => l.orderRank
      case ItemEntry(i) => i.orderRank
    }
  }

  /** The ranks `getNeighbors` hands to the allocator; absent means "no neighbour there". */
  datatype Neighbors = Neighbors(leftRank: Option<int>, rightRank: Option<int>)

  /** The ids of a scope, in scope order. */
  function Ids(s: seq<Entry>): (ids: seq<ID>)
    ensures |ids| == |s| && forall i :: 0 <= i < |s| ==> ids[i] == s[i].Id()
  {
    seq(|s|, i requires 0 <= i < |s| => s[i].Id())
  }

  /** `true` for an item that belongs to the requested scope: any item when no (or an
      empty) list id is given, otherwise the items of that list. */
  predicate InList(item: ActionItem, listId: Option<ID>) {
    !Truthy(listId) || item.listId == listId.value
  }

  /**
   * `items.filter(item => !listId || item.listId === listId)`, as scope entries: the
   * matching items and nothing else, each as often as in the store (`FilterItemsCounts`),
   * in store order (`FilterItemsAppend`).
   */
  function FilterItems(items: seq<ActionItem>, listId: Option<ID>): (r: seq<Entry>)
    ensures |r| <= |items|
    ensures forall e :: e in r ==> e.ItemEntry?
    ensures forall x {:trigger ItemEntry(x) in r} :: ItemEntry(x) in r <==> x in items && InList(x, listId)
  {
    if items == [] then []
    else
      var rest := FilterItems(items[1..], listId);
      assert items == [items[0]] + items[1..];
      if InList(items[0], listId) then [ItemEntry(items[0])] + rest else rest
  }

  /** Every matching item is kept as often as it occurs in the store; nothing else is kept. */
  lemma {:induction false} FilterItemsCounts(items: seq<ActionItem>, listId: Option<ID>)
    ensures forall x :: multiset(FilterItems(items, listId))[ItemEntry(x)] ==
              if InList(x, listId) then multiset(items)[x] else 0
  {
    if items != [] {
      FilterItemsCounts(items[1..], listId);
      assert items == [items[0]] + items[1..];
      assert multiset(items) == multiset{items[0]} + multiset(items[1..]);
    }
  }

  /** A single item is kept exactly when it belongs to the requested scope. With
      `FilterItemsAppend` this fixes the result: the matching items in store order. */
  lemma FilterItemsSingle(x: ActionItem, listId: Option<ID>)
    ensures FilterItems([x], listId) == if InList(x, listId) then [ItemEntry(x)] else []
  {
  }

  /** Filtering keeps the store order: it distributes over concatenation. */
  lemma {:induction false} FilterItemsAppend(a: seq<ActionItem>, b: seq<ActionItem>, listId: Option<ID>)
    ensures FilterItems(a + b, listId) == FilterItems(a, listId) + FilterItems(b, listId)
  {
    if a != [] {
      var fa, fb, ftail := FilterItems(a, listId), FilterItems(b, listId), FilterItems(a[1..], listId);
      FilterItemsAppend(a[1..], b, listId);
      assert (a + b)[0] == a[0];
      assert (a + b)[1..] == a[1..] + b;
      assert FilterItems(a + b, listId) ==
             (if InList(a[0], listId) then [ItemEntry(a[0])] else []) + FilterItems(a[1..] + b, listId);
      if InList(a[0], listId) {
        assert fa == [ItemEntry(a[0])] + ftail;
        assert [ItemEntry(a[0])] + (ftail + fb) == fa + fb;
      }
    } else {
      assert a + b == b;
    }
  }

  /** The elements of one scope, in store order (before sorting): every list, or the
      matching items, each as often as in the store. */
  function Scope(db: DB, collection: Collection, listId: Option<ID>): (r: seq<Entry>)
    ensures collection == Lists ==>
              |r| == |db.lists| && forall i :: 0 <= i < |r| ==> r[i] == ListEntry(db.lists[i])
    ensures collection == Items ==> forall e :: e in r ==> e.ItemEntry?
    ensures collection == Items ==>
              forall x :: ItemEntry(x) in r <==> x in db.items && InList(x, listId)
    ensures collection == Items ==>
              forall x :: multiset(r)[ItemEntry(x)] ==
                if InList(x, listId) then multiset(db.items)[x] else 0
  {
    match collection
    case Lists => seq(|db.lists|, i requires 0 <= i < |db.lists| => ListEntry(db.lists[i]))
    case Items =>
      FilterItemsCounts(db.items, listId);
      FilterItems(db.items, listId)
  }

  /** Ascending by rank. */
  predicate SortedByRank(s: seq<Entry>) {
    forall i, j :: 0 <= i < j < |s| ==> s[i].Rank() <= s[j].Rank()
  }

  /** Places `x` before the first element whose rank is not below its own. */
  function InsertByRank(x: Entry, s: seq<Entry>): (r: seq<Entry>)
    requires SortedByRank(s)
    ensures SortedByRank(r)
    ensures multiset(r) == multiset(s) + multiset{x}
  {
    if s == [] || x.Rank() <= s[0].Rank() then
      SortedCons(x, s);
      [x] + s
    else
      var rest := InsertByRank(x, s[1..]);
      assert s == [s[0]] + s[1..];
      assert forall e :: e in rest ==> s[0].Rank() <= e.Rank() by {
        forall e | e in rest ensures s[0].Rank() <= e.Rank() {
          assert e in multiset(rest);
          assert e == x || e in s[1..];
        }
      }
      SortedCons(s[0], rest);
      [s[0]] + rest
  }

  /** Putting in front of a sorted sequence an element whose rank is not above its first
      element's (if any) keeps it sorted. */
  lemma SortedCons(y: Entry, t: seq<Entry>)
    requires SortedByRank(t)
    requires t != [] ==> y.Rank() <= t[0].Rank()
    ensures SortedByRank([y] + t)
  {
    var r := [y] + t;
    forall i, j | 0 <= i < j < |r| ensures r[i].Rank() <= r[j].Rank() {
      if i == 0 && j > 1 {
        assert r[j] == t[j - 1] && t[0].Rank() <= t[j - 1].Rank();
      }
    }
  }

  /**
   * `sort((a, b) => a.orderRank - b.orderRank)`: an insertion sort that keeps equal
   * ranks in their original order, which is the (unique) result of the stable
   * `Array.prototype.sort`.
   */
  function SortByRank(s: seq<Entry>): (r: seq<Entry>)
    ensures SortedByRank(r)
    ensures multiset(r) == multiset(s)
    ensures |r| == |s|
  {
    if s == [] then []
    else
      assert s == [s[0]] + s[1..];
      InsertByRank(s[0], SortByRank(s[1..]))
  }

  /** The scope `getNeighbors` reads: the elements of the scope, ascending by rank. */
  function SortedScope(db: DB, collection: Collection, listId: Option<ID>): (r: seq<Entry>)
    ensures SortedByRank(r)
    ensures multiset(r) == multiset(Scope(db, collection, listId))
  {
    SortByRank(Scope(db, collection, listId))
  }

  /**
   * The anchor logic of `getNeighbors` on a scope already sorted by rank. A truthy
   * `beforeId` names the element that ends up just before the moved one; only when it is
   * absent or empty is a truthy `afterId` (the element that ends up just after) used.
   * An anchor that is not in the scope leaves both sides absent.
   */
  function ResolveAnchors(items: seq<Entry>, beforeId: Option<ID>, afterId: Option<ID>): (n: Neighbors)
    // both sides: an adjacent pair of the scope
    ensures n.leftRank.Some? && n.rightRank.Some? ==>
              exists i :: 0 <= i < |items| - 1 &&
                n.leftRank.value == items[i].Rank() && n.rightRank.value == items[i + 1].Rank()
    // left only: the last element of the scope
    ensures n.leftRank.Some? && n.rightRank.None? ==>
              |items| > 0 && n.leftRank.value == items[|items| - 1].Rank()
    // right only: the first element of the scope
    ensures n.leftRank.None? && n.rightRank.Some? ==>
              |items| > 0 && n.rightRank.value == items[0].Rank()
    // nothing resolved exactly when the anchor in force is missing or not in the scope
    ensures n == Neighbors(None, None) <==>
              if Truthy(beforeId) then beforeId.value !in Ids(items)
              else !Truthy(afterId) || afterId.value !in Ids(items)
  {
    if Truthy(beforeId) then
      var beforeIndex := IndexOf(Ids(items), beforeId.value);
      if beforeIndex == -1 then Neighbors(None, None)
      else
        Neighbors(Some(items[beforeIndex].Rank()),
                  if beforeIndex < |items| - 1 then Some(items[beforeIndex + 1].Rank()) else None)
    else if Truthy(afterId) then
      var afterIndex := IndexOf(Ids(items), afterId.value);
      if afterIndex == -1 then Neighbors(None, None)
      else
        Neighbors(if afterIndex > 0 then Some(items[afterIndex - 1].Rank()) else None,
                  Some(items[afterIndex].Rank()))
    else Neighbors(None, None)
  }

  /** A `beforeId` found at position `i` (its only occurrence) resolves to its own rank on
      the left and its successor's rank, if any, on the right; `afterId` plays no part. */
  lemma BeforeAnchorResolves(items: seq<Entry>, i: int, afterId: Option<ID>)
    requires Distinct(Ids(items)) && 0 <= i < |items| && items[i].Id() != ""
    ensures ResolveAnchors(items, Some(items[i].Id()), afterId) ==
              Neighbors(Some(items[i].Rank()),
                        if i < |items| - 1 then Some(items[i + 1].Rank()) else None)
  {
  }

  /** With no usable `beforeId`, an `afterId` found at position `i` resolves to its own
      rank on the right and its predecessor's rank, if any, on the left. */
  lemma AfterAnchorResolves(items: seq<Entry>, beforeId: Option<ID>, i: int)
    requires Distinct(Ids(items)) && 0 <= i < |items| && items[i].Id() != ""
    requires !Truthy(beforeId)
    ensures ResolveAnchors(items, beforeId, Some(items[i].Id())) ==
              Neighbors(if i > 0 then Some(items[i - 1].Rank()) else None, Some(items[i].Rank()))
  {
  }

  /** A truthy `beforeId` decides alone: the `afterId` that comes with it is ignored. */
  lemma BeforeTakesPrecedence(items: seq<Entry>, beforeId: Option<ID>, afterId: Option<ID>)
    requires Truthy(beforeId)
    ensures ResolveAnchors(items, beforeId, afterId) == ResolveAnchors(items, beforeId, None)
  {
  }

  /**
   * `getNeighbors`: resolve the anchors against the chosen scope sorted by rank. The
   * ranks returned are ranks of scope elements, and when both are present the left one
   * is not above the right one.
   */
  function GetNeighbors(db: DB, collection: Collection, listId: Option<ID>,
                        beforeId: Option<ID>, afterId: Option<ID>): (n: Neighbors)
    ensures n.leftRank.Some? && n.rightRank.Some? ==> n.leftRank.value <= n.rightRank.value
    ensures n.leftRank.Some? ==>
              exists e :: e in Scope(db, collection, listId) && e.Rank() == n.leftRank.value
    ensures n.rightRank.Some? ==>
              exists e :: e in Scope(db, collection, listId) && e.Rank() == n.rightRank.value
  {
    var items := SortedScope(db, collection, listId);
    SameElements(items, Scope(db, collection, listId));
    ResolveAnchors(items, beforeId, afterId)
  }

  /** Sequences with the same multiset have the same elements. */
  lemma SameElements(a: seq<Entry>, b: seq<Entry>)
    requires multiset(a) == multiset(b)
    ensures forall e :: e in a <==> e in b
  {
    forall e ensures e in a <==> e in b {
      assert e in a <==> e in multiset(a);
      assert e in b <==> e in multiset(b);
    }
  }

  /** The largest rank of a non-empty scope. */
  function MaxRank(s: seq<Entry>): (m: int)
    requires |s| > 0
    ensures forall e :: e in s ==> e.Rank() <= m
    ensures exists e :: e in s && e.Rank() == m
  {
    if |s| == 1 then s[0].Rank()
    else
      var m := MaxRank(s[1..]);
      assert s == [s[0]] + s[1..];
      if s[0].Rank() > m then s[0].Rank() else m
  }

  /**
   * `getNextOrderRank`: the rank for appending at the end of a scope, `DEFAULT_STEP`
   * above the largest rank there (a scope rank plus `DEFAULT_STEP` that no scope rank
   * plus `DEFAULT_STEP` exceeds), or `DEFAULT_STEP` itself for an empty scope.
   */
  function GetNextOrderRank(db: DB, collection: Collection, listId: Option<ID>): (r: int)
    ensures Scope(db, collection, listId) == [] ==> r == Ranking.DEFAULT_STEP
    ensures forall e :: e in Scope(db, collection, listId) ==> e.Rank() < r
    ensures Scope(db, collection, listId) != [] ==>
              exists e :: e in Scope(db, collection, listId) && r == e.Rank() + Ranking.DEFAULT_STEP
    ensures forall e :: e in Scope(db, collection, listId) ==> e.Rank() + Ranking.DEFAULT_STEP <= r
  {
    var items := Scope(db, collection, listId);
    if |items| == 0 then Ranking.DEFAULT_STEP
    else MaxRank(items) + Ranking.DEFAULT_STEP
  }
}

=== FILE: drag_protocol.dfy ===
/**
 * The two halves of a reorder taken together: the anchors a panel derives from the
 * final order, resolved by `getNeighbors` against the same scope, give exactly the ranks
 * of the moved element's final predecessor and successor.
 */
module DragProtocol {
  import opened Wrappers
  import opened Types
  import Ranking
  import Db
  import Reorder
  import ItemsPanel
  import ListsPanel

  /** The ranks of the elements just before and just after position `to` of `moved`. */
  function FinalNeighborRanks(moved: seq<Db.Entry>, to: int): Db.Neighbors
    requires 0 <= to < |moved|
  {
    Db.Neighbors(if to > 0 then Some(moved[to - 1].Rank()) else None,
                 if to < |moved| - 1 then Some(moved[to + 1].Rank()) else None)
  }

  /**
   * On a scope with distinct, non-empty ids, the destination neighbours of a move
   * (`from != to`), used as `beforeId`/`afterId`, resolve to the ranks of the moved
   * element's predecessor and successor in the final order. A moved element that is
   * not first resolves through `beforeId`; one that is first through `afterId`, with no
   * left rank.
   */
  lemma AnchorsResolveToFinalNeighbors(scope: seq<Db.Entry>, from: int, to: int)
    requires Distinct(Db.Ids(scope)) && forall i :: 0 <= i < |scope| ==> scope[i].Id() != ""
    requires 0 <= from < |scope| && 0 <= to < |scope| && from != to
    ensures var a := Reorder.DestinationNeighbors(Db.Ids(scope), from, to);
            Db.ResolveAnchors(scope, a.beforeId, a.afterId) ==
              FinalNeighborRanks(Reorder.ArrayMove(scope, from, to), to)
  {
    var ids := Db.Ids(scope);
    var moved := Reorder.ArrayMove(scope, from, to);
    var a := Reorder.DestinationNeighbors(ids, from, to);
    var last := |scope| - 1;
    if from < to {
      assert a.beforeId == Some(scope[to].Id());
      assert FinalNeighborRanks(moved, to) ==
             Db.Neighbors(Some(scope[to].Rank()), if to < last then Some(scope[to + 1].Rank()) else None) by {
        assert moved[to - 1] == scope[to];
        assert to < last ==> moved[to + 1] == scope[to + 1];
      }
      Db.BeforeAnchorResolves(scope, to, a.afterId);
    } else if to > 0 {
      assert a.beforeId == Some(scope[to - 1].Id());
      assert FinalNeighborRanks(moved, to) ==
             Db.Neighbors(Some(scope[to - 1].Rank()), Some(scope[to].Rank())) by {
        assert moved[to - 1] == scope[to - 1];
        assert moved[to + 1] == scope[to];
      }
      Db.BeforeAnchorResolves(scope, to - 1, a.afterId);
    } else {
      assert a == Reorder.Anchors(None, Some(scope[0].Id()));
      assert FinalNeighborRanks(moved, 0) == Db.Neighbors(None, Some(scope[0].Rank())) by {
        assert moved[1] == scope[0];
      }
      Db.AfterAnchorResolves(scope, None, 0);
    }
  }

  /**
   * An item drop: when the panel shows the list's items in the order `getNeighbors`
   * sorts them, the request the panel sends resolves, on the server, to the ranks of the
   * dragged item's final predecessor and successor, and a rank the corrected allocator
   * returns for them sorts the item exactly there.
   */
  lemma ItemDropResolvesToFinalNeighbors(db: DB, items: seq<ActionItem>, listId: ID,
                                         activeId: ID, overId: ID)
    requires listId != ""
    requires ItemsPanel.Ids(items) == Db.Ids(Db.SortedScope(db, Db.Items, Some(listId)))
    requires Distinct(ItemsPanel.Ids(items)) && forall i :: 0 <= i < |items| ==> items[i].id != ""
    requires activeId in ItemsPanel.Ids(items) && overId in ItemsPanel.Ids(items)
    requires activeId != overId
    ensures var r := ItemsPanel.HandleDragEnd(items, listId, activeId, Some(overId));
            var scope := Db.SortedScope(db, Db.Items, Some(listId));
            var ids := ItemsPanel.Ids(items);
            var from, to := IndexOf(ids, activeId), IndexOf(ids, overId);
            var n := Db.GetNeighbors(db, Db.Items, Some(r.value.targetListId), r.value.beforeId, r.value.afterId);
            && n == FinalNeighborRanks(Reorder.ArrayMove(scope, from, to), to)
            && (Ranking.MidRankStrict(n.leftRank, n.rightRank).Allocated? ==>
                  Ranking.StrictlyBetween(n.leftRank, Ranking.MidRankStrict(n.leftRank, n.rightRank).rank, n.rightRank))
  {
    var ids := ItemsPanel.Ids(items);
    var scope := Db.SortedScope(db, Db.Items, Some(listId));
    AnchorsResolveToFinalNeighbors(scope, IndexOf(ids, activeId), IndexOf(ids, overId));
    var r := ItemsPanel.HandleDragEnd(items, listId, activeId, Some(overId));
    var n := Db.GetNeighbors(db, Db.Items, Some(r.value.targetListId), r.value.beforeId, r.value.afterId);
    Ranking.MidRankStrictBetween(n.leftRank, n.rightRank, Ranking.DEFAULT_STEP);
  }

  /**
   * A list drop: when the panel shows the lists in the order `getNeighbors` sorts them,
   * the request the panel sends resolves to the ranks of the dragged list's final
   * predecessor and successor, and a rank the corrected allocator returns for them sorts
   * the list exactly there.
   */
  lemma ListDropResolvesToFinalNeighbors(db: DB, lists: seq<ActionList>, activeId: ID, overId: ID)
    requires ListsPanel.Ids(lists) == Db.Ids(Db.SortedScope(db, Db.Lists, None))
    requires Distinct(ListsPanel.Ids(lists)) && forall i :: 0 <= i < |lists| ==> lists[i].id != ""
    requires activeId in ListsPanel.Ids(lists) && overId in ListsPanel.Ids(lists)
    requires activeId != overId
    ensures var r := ListsPanel.HandleDragEnd(lists, activeId, Some(overId));
            var scope := Db.SortedScope(db, Db.Lists, None);
            var ids := ListsPanel.Ids(lists);
            var from, to := IndexOf(ids, activeId), IndexOf(ids, overId);
            var n := Db.GetNeighbors(db, Db.Lists, None, r.value.beforeId, r.value.afterId);
            && n == FinalNeighborRanks(Reorder.ArrayMove(scope, from, to), to)
            && (Ranking.MidRankStrict(n.leftRank, n.rightRank).Allocated? ==>
                  Ranking.StrictlyBetween(n.leftRank, Ranking.MidRankStrict(n.leftRank, n.rightRank).rank, n.rightRank))
  {
    var ids := ListsPanel.Ids(lists);
    var scope := Db.SortedScope(db, Db.Lists, None);
    AnchorsResolveToFinalNeighbors(scope, IndexOf(ids, activeId), IndexOf(ids, overId));
    var r := ListsPanel.HandleDragEnd(lists, activeId, Some(overId));
    var n := Db.GetNeighbors(db, Db.Lists, None, r.value.beforeId, r.value.afterId);
    Ranking.MidRankStrictBetween(n.leftRank, n.rightRank, Ranking.DEFAULT_STEP);
  }
}

=== FILE: items_panel.dfy ===
/** The drag-end handler of the items panel: which move request a drop produces. */
module ItemsPanel {
  import opened Wrappers
  import opened Types
  import Reorder

  /** The body of the item move request: the item, the panel's own list and the anchors. */
  datatype MoveItemRequest = MoveItemRequest(
    itemId: ID,
    targetListId: ID,
    beforeId: Option<ID>,
    afterId: Option<ID>)

  function Ids(items: seq<ActionItem>): (ids: seq<ID>)
    ensures |ids| == |items| && forall i :: 0 <= i < |items| ==> ids[i] == items[i].id
  {
    Map((item: ActionItem) => item.id, items)
  }

  /**
   * `handleDragEnd`: nothing happens unless the drop has a target other than the dragged
   * item. Otherwise the dragged item is moved to the target's position, the anchors are
   * read off the final order, and the request names the panel's own list. The dragged and
   * the target id are items of the panel (the sortable context is built from them), and
   * item ids are distinct.
   */
  function HandleDragEnd(items: seq<ActionItem>, listId: ID, activeId: ID, overId: Option<ID>)
    : (r: Option<MoveItemRequest>)
    requires Distinct(Ids(items))
    requires activeId in Ids(items) && (overId.Some? ==> overId.value in Ids(items))
    ensures r.Some? <==> overId.Some? && overId.value != activeId
    ensures r.Some? ==> r.value.itemId == activeId && r.value.targetListId == listId
    ensures r.Some? ==>
              var ids := Ids(items);
              Reorder.Anchors(r.value.beforeId, r.value.afterId) ==
                Reorder.DestinationNeighbors(ids, IndexOf(ids, activeId), IndexOf(ids, overId.value))
    ensures r.Some? ==> r.value.beforeId.Some? || r.value.afterId.Some?
    ensures r.Some? ==> r.value.beforeId != Some(activeId) && r.value.afterId != Some(activeId)
  {
    if overId.Some? && activeId != overId.value then
      var oldIndex := IndexOf(Ids(items), activeId);
      var newIndex := IndexOf(Ids(items), overId.value);
      var reorderedItems := Reorder.ArrayMove(items, oldIndex, newIndex);
      var anchors := Reorder.FinalAnchors(Ids(reorderedItems), activeId);
      Reorder.ArrayMoveMap((item: ActionItem) => item.id, items, oldIndex, newIndex);
      Reorder.FinalAnchorsAreDestinationNeighbors(Ids(items), oldIndex, newIndex);
      Some(MoveItemRequest(activeId, listId, anchors.beforeId, anchors.afterId))
    else
      None
  }
}

=== FILE: lists_panel.dfy ===
/** The drag-end handler of the lists panel: which move request a drop produces. */
module ListsPanel {
  import opened Wrappers
  import opened Types
  import Reorder

  /** The body of the list move request: the list and the anchors. Lists share one global
      scope, so the request names none. */
  datatype MoveListRequest = MoveListRequest(
    listId: ID,
    beforeId: Option<ID>,
    afterId: Option<ID>)

  function Ids(lists: seq<ActionList>): (ids: seq<ID>)
    ensures |ids| == |lists| && forall i :: 0 <= i < |lists| ==> ids[i] == lists[i].id
  {
    Map((list: ActionList) => list.id, lists)
  }

  /**
   * `handleDragEnd`: nothing happens unless the drop has a target other than the dragged
   * list. Otherwise the dragged list is moved to the target's position and the anchors
   * are read off the final order. The dragged and the target id are lists of the panel
   * (the sortable context is built from them), and list ids are distinct.
   */
  function HandleDragEnd(lists: seq<ActionList>, activeId: ID, overId: Option<ID>)
    : (r: Option<MoveListRequest>)
    requires Distinct(Ids(lists))
    requires activeId in Ids(lists) && (overId.Some? ==> overId.value in Ids(lists))
    ensures r.Some? <==> overId.Some? && overId.value != activeId
    ensures r.Some? ==> r.value.listId == activeId
    ensures r.Some? ==>
              var ids := Ids(lists);
              Reorder.Anchors(r.value.beforeId, r.value.afterId) ==
                Reorder.DestinationNeighbors(ids, IndexOf(ids, activeId), IndexOf(ids, overId.value))
    ensures r.Some? ==> r.value.beforeId.Some? || r.value.afterId.Some?
    ensures r.Some? ==> r.value.beforeId != Some(activeId) && r.value.afterId != Some(activeId)
  {
    if overId.Some? && activeId != overId.value then
      var oldIndex := IndexOf(Ids(lists), activeId);
      var newIndex := IndexOf(Ids(lists), overId.value);
      var reorderedLists := Reorder.ArrayMove(lists, oldIndex, newIndex);
      var anchors := Reorder.FinalAnchors(Ids(reorderedLists), activeId);
      Reorder.ArrayMoveMap((list: ActionList) => list.id, lists, oldIndex, newIndex);
      Reorder.FinalAnchorsAreDestinationNeighbors(Ids(lists), oldIndex, newIndex);
      Some(MoveListRequest(activeId, anchors.beforeId, anchors.afterId))
    else
      None
  }
}

=== FILE: ranking.dfy ===
/**
 * Sparse integer ranks: the allocator that finds a rank between two neighbours,
 * the evenly spaced renumbering of a scope, and the advisory "is any gap used up" scan.
 */
module Ranking {
  import opened Wrappers
  import opened Types

  /** Spacing between consecutive ranks on creation and after a renumbering. */
  const DEFAULT_STEP: int := 1024

  /** Outcome of the allocator. `Collision` stands for the NaN the allocator returns
      when no integer lies strictly between the two neighbours. */
  datatype Alloc = Allocated(rank: int) | Collision

  /** The ranks a scope of `n` elements receives when it is numbered afresh. */
  function InitialRanks(n: nat, step: int := DEFAULT_STEP): (r: seq<int>)
    ensures |r| == n
    ensures forall i :: 0 <= i < n ==> r[i] == (i + 1) * step
  {
    seq(n, i => (i + 1) * step)
  }

  /** Freshly numbered ranks are `step` apart and start at `step`. */
  lemma InitialRanksSpacing(n: nat, step: int, i: nat)
    requires 0 < i < n
    ensures InitialRanks(n, step)[i] - InitialRanks(n, step)[i - 1] == step
    ensures InitialRanks(n, step)[0] == step
  {
    var r := InitialRanks(n, step);
    assert r[i] == (i + 1) * step && r[i - 1] == i * step;
    assert (i + 1) * step == i * step + step;
  }

  /**
   * The allocator. With no neighbour it starts the scope at `step`; before the first
   * element it takes the rounded-down half of the first rank minus 1, with 0 replaced
   * by 1 (so 1 before a first rank of 1, a tie); after the last element it
   * adds `step`; between two neighbours it takes the rounded-down midpoint, or reports
   * a collision when that midpoint is not strictly between them.
   */
  function MidRank(left: Option<int>, right: Option<int>, step: int := DEFAULT_STEP): (r: Alloc)
    // empty scope
    ensures left.None? && right.None? ==> r == Allocated(step)
    // insert at head: never a collision; below the first rank once that rank is at least 2
    ensures left.None? && right.Some? ==> r.Allocated?
    ensures left.None? && right.Some? && right.value >= 2 ==> 1 <= r.rank < right.value
    ensures left.None? && right.Some? && (right.value >= 3 || right.value <= 0) ==>
              2 * r.rank <= right.value - 1 <= 2 * r.rank + 1
    ensures left.None? && right.Some? && 1 <= right.value <= 2 ==> r.rank == 1
    // insert at tail: `step` above the last rank
    ensures left.Some? && right.None? ==> r.Allocated? && r.rank - left.value == step
    // between two neighbours: a collision exactly when no integer fits between them
    ensures left.Some? && right.Some? ==> (r.Collision? <==> right.value - left.value <= 1)
    ensures left.Some? && right.Some? && r.Allocated? ==>
              left.value < r.rank < right.value &&
              r.rank - left.value <= right.value - r.rank <= r.rank - left.value + 1
  {
    if left.None? && right.None? then Allocated(step)
    else if left.None? then
      // `Math.floor(x / 2) || 1`: a zero half becomes 1
      var half := (right.value - 1) / 2;
      Allocated(if half == 0 then 1 else half)
    else if right.None? then Allocated(left.value + step)
    else
      var mid := (left.value + right.value) / 2;
      if left.value < mid < right.value then Allocated(mid) else Collision
  }

  /** Worked values of the allocator with the default step. */
  lemma AllocatorExamples()
    ensures MidRank(None, None) == Allocated(1024)
    ensures MidRank(None, Some(100)) == Allocated(49)
    ensures MidRank(None, Some(2)) == Allocated(1)
    ensures MidRank(None, Some(0)) == Allocated(-1)
    ensures MidRank(Some(100), None) == Allocated(1124)
    ensures MidRank(Some(100), Some(102)) == Allocated(101)
    ensures MidRank(Some(100), Some(101)) == Collision
  {
  }

  /** `r` lies strictly between the neighbours that are present. */
  predicate StrictlyBetween(left: Option<int>, r: int, right: Option<int>) {
    (left.Some? ==> left.value < r) && (right.Some? ==> r < right.value)
  }

  /** Inserting at the head of a scope whose first rank is 1 yields 1 again: the new
      element ties with the old head and no collision is reported. */
  lemma HeadInsertBeforeRankOneTies()
    ensures MidRank(None, Some(1)) == Allocated(1)
    ensures !StrictlyBetween(None, MidRank(None, Some(1)).rank, Some(1))
  {
  }

  /** The allocator with the head case corrected: a first rank of 1 or less leaves no
      positive rank below it, which is reported as a collision. */
  function MidRankStrict(left: Option<int>, right: Option<int>, step: int := DEFAULT_STEP): (r: Alloc)
    ensures r.Collision? <==>
              (left.Some? && right.Some? && right.value - left.value <= 1) ||
              (left.None? && right.Some? && right.value <= 1)
    ensures left.None? && right.Some? && r.Allocated? ==> 1 <= r.rank
  {
    if left.None? && right.Some? && right.value <= 1 then Collision
    else MidRank(left, right, step)
  }

  /** Whatever the corrected allocator returns lies strictly between the neighbours it
      was given, so the new element sorts exactly where it was placed. */
  lemma MidRankStrictBetween(left: Option<int>, right: Option<int>, step: int)
    requires step > 0
    ensures MidRankStrict(left, right, step).Allocated? ==>
              StrictlyBetween(left, MidRankStrict(left, right, step).rank, right)
  {
  }

  /** Some adjacent pair has no integer room left between it. */
  predicate TightGap(ranks: seq<int>) {
    exists i :: 1 <= i < |ranks| && ranks[i] - ranks[i - 1] <= 1
  }

  /** The advisory scan: true as soon as an adjacent pair differs by at most 1. */
  method NeedsReindex(sortedRanks: seq<int>) returns (b: bool)
    ensures b <==> TightGap(sortedRanks)
    ensures |sortedRanks| < 2 ==> !b
  {
    var i := 1;
    while i < |sortedRanks|
      invariant 1 <= i
      invariant forall j :: 1 <= j < i && j < |sortedRanks| ==> sortedRanks[j] - sortedRanks[j - 1] > 1
    {
      if sortedRanks[i] - sortedRanks[i - 1] <= 1 {
        return true;
      }
      i := i + 1;
    }
    return false;
  }

  /** After a renumbering with a step of at least 2 every gap has room: the scan finds
      nothing and the allocator succeeds between every adjacent pair, strictly inside it. */
  lemma ReindexLeavesRoom(n: nat, step: int)
    requires step >= 2
    ensures !TightGap(InitialRanks(n, step))
    ensures forall i :: 1 <= i < n ==>
              MidRank(Some(InitialRanks(n, step)[i - 1]), Some(InitialRanks(n, step)[i])).Allocated?
  {
    var r := InitialRanks(n, step);
    forall i | 1 <= i < n
      ensures r[i] - r[i - 1] == step
    {
      InitialRanksSpacing(n, step, i);
    }
  }

  /** Adjacent ranks 1024 and 1025 collide; a fresh numbering of two elements is 1024 and
      2048, and between those ranks the allocator finds 1536. */
  lemma CollisionThenReindexScenario()
    ensures MidRank(Some(1024), Some(1025)) == Collision
    ensures InitialRanks(2) == [1024, 2048]
    ensures MidRank(Some(1024), Some(2048)) == Allocated(1536)
  {
  }

  /** A record whose rank is rewritten in place by a renumbering (the source's
      `{ orderRank: number }` element type: a list or an item). */
  class RankedRecord {
    const id: ID
    var orderRank: int
    var version: int

    constructor (id: ID, orderRank: int, version: int)
      ensures this.id == id && this.orderRank == orderRank && this.version == version
    {
      this.id := id;
      this.orderRank := orderRank;
      this.version := version;
    }
  }

  /** `items[i]` does not occur again later in `items`. */
  predicate LastOccurrence(items: seq<RankedRecord>, i: int)
    requires 0 <= i < |items|
  {
    forall j :: i < j < |items| ==> items[j] != items[i]
  }

  /**
   * Renumbers a scope in place: the element at position `idx` gets `(idx + 1) * step`.
   * Only `orderRank` is written; the sequence itself (length, order) is untouched. When
   * the same object occurs twice its last position wins; for distinct objects the new
   * ranks are exactly `InitialRanks`.
   */
  method ReindexCollection(items: seq<RankedRecord>, step: int := DEFAULT_STEP)
    modifies items`orderRank
    ensures forall i :: 0 <= i < |items| && LastOccurrence(items, i) ==>
              items[i].orderRank == (i + 1) * step
    ensures Distinct(items) ==>
              forall i :: 0 <= i < |items| ==> items[i].orderRank == InitialRanks(|items|, step)[i]
    ensures forall o :: o in items ==> o.version == old(o.version)
  {
    for idx := 0 to |items|
      invariant forall i :: 0 <= i < idx && (forall j :: i < j < idx ==> items[j] != items[i]) ==>
                  items[i].orderRank == (i + 1) * step
    {
      items[idx].orderRank := (idx + 1) * step;
    }
  }
}

=== FILE: reorder.dfy ===
/**
 * The client half of a drag-and-drop reorder, shared by the lists panel and the items
 * panel: move one element to its drop position, then name the elements that end up
 * just before and just after it.
 */
module Reorder {
  import opened Wrappers
  import opened Types

  /** The anchors a move request carries. */
  datatype Anchors = Anchors(beforeId: Option<ID>, afterId: Option<ID>)

  /**
   * `arrayMove(array, from, to)`: a copy of `s` with the element at `from` taken out and
   * put back at `to`. The elements strictly between the two positions shift by one
   * towards `from`; everything else stays put.
   */
  function ArrayMove<T>(s: seq<T>, from: int, to: int): (r: seq<T>)
    requires 0 <= from < |s| && 0 <= to < |s|
    ensures |r| == |s|
    ensures multiset(r) == multiset(s)
    ensures r[to] == s[from]
    ensures forall k :: 0 <= k < |s| ==> r[k] == s[Source(from, to, k)]
  {
    var rest := Remove(s, from);
    var r := Insert(rest, to, s[from]);
    assert forall k :: 0 <= k < |s| ==> r[k] == s[Source(from, to, k)] by {
      forall k | 0 <= k < |s| ensures r[k] == s[Source(from, to, k)] {
        if k < to {
          assert r[k] == rest[k];
        } else if k > to {
          assert r[k] == rest[k - 1];
        }
      }
    }
    r
  }

  /**
   * The position before a move of the element found at `k` after moving `from` to `to`:
   * the moved element itself at `to`, the elements strictly between the two positions
   * shifted by one towards `from`, every other element where it was.
   */
  function Source(from: int, to: int, k: int): int {
    if k == to then from
    else if from < to && from <= k < to then k + 1
    else if to < from && to < k <= from then k - 1
    else k
  }

  /** `s` without the element at `i` (the first `splice` of `arrayMove`). */
  function Remove<T>(s: seq<T>, i: int): (r: seq<T>)
    requires 0 <= i < |s|
    ensures |r| == |s| - 1
    ensures forall k :: 0 <= k < i ==> r[k] == s[k]
    ensures forall k :: i <= k < |r| ==> r[k] == s[k + 1]
    ensures multiset(r) + multiset{s[i]} == multiset(s)
  {
    assert s == s[..i] + [s[i]] + s[i + 1..];
    s[..i] + s[i + 1..]
  }

  /** `t` with `x` put in at position `j` (the second `splice` of `arrayMove`). */
  function Insert<T>(t: seq<T>, j: int, x: T): (r: seq<T>)
    requires 0 <= j <= |t|
    ensures |r| == |t| + 1
    ensures forall k :: 0 <= k < j ==> r[k] == t[k]
    ensures r[j] == x
    ensures forall k :: j < k < |r| ==> r[k] == t[k - 1]
    ensures multiset(r) == multiset(t) + multiset{x}
  {
    assert t == t[..j] + t[j..];
    t[..j] + [x] + t[j..]
  }

  /** Moving back from `to` to `from` undoes a move. */
  lemma ArrayMoveRoundTrip<T>(s: seq<T>, from: int, to: int)
    requires 0 <= from < |s| && 0 <= to < |s|
    ensures ArrayMove(ArrayMove(s, from, to), to, from) == s
  {
    var back := ArrayMove(ArrayMove(s, from, to), to, from);
    forall k | 0 <= k < |s| ensures back[k] == s[k] {
      ArrayMoveBackAt(s, from, to, k);
    }
  }

  /** One position of `ArrayMoveRoundTrip`: the element moved away from `k` comes back. */
  lemma ArrayMoveBackAt<T>(s: seq<T>, from: int, to: int, k: int)
    requires 0 <= from < |s| && 0 <= to < |s| && 0 <= k < |s|
    ensures ArrayMove(ArrayMove(s, from, to), to, from)[k] == s[k]
  {
    var j := Source(to, from, k);
    assert ArrayMove(ArrayMove(s, from, to), to, from)[k] == ArrayMove(s, from, to)[j];
    assert Source(from, to, j) == k;
  }

  /** Moving the elements and then taking their keys is moving the keys. */
  lemma ArrayMoveMap<T, U>(f: T -> U, s: seq<T>, from: int, to: int)
    requires 0 <= from < |s| && 0 <= to < |s|
    ensures Map(f, ArrayMove(s, from, to)) == ArrayMove(Map(f, s), from, to)
  {
    var a := Map(f, ArrayMove(s, from, to));
    var b := ArrayMove(Map(f, s), from, to);
    forall k | 0 <= k < |s| ensures a[k] == b[k] {
    }
  }

  /**
   * The anchors read off the final order: the id just before the moved element's first
   * occurrence, if it is not first, and the id just after it, if it is not last.
   */
  function FinalAnchors(reorderedIds: seq<ID>, activeId: ID): (a: Anchors)
    ensures activeId in reorderedIds ==>
              (a.beforeId.Some? <==> reorderedIds[0] != activeId) &&
              (a.afterId.Some? <==> IndexOf(reorderedIds, activeId) < |reorderedIds| - 1)
    ensures a.beforeId.Some? ==>
              exists k :: 1 <= k < |reorderedIds| &&
                reorderedIds[k] == activeId && reorderedIds[k - 1] == a.beforeId.value
    ensures activeId in reorderedIds && a.afterId.Some? ==>
              exists k :: 0 <= k < |reorderedIds| - 1 &&
                reorderedIds[k] == activeId && reorderedIds[k + 1] == a.afterId.value
  {
    var finalIndex := IndexOf(reorderedIds, activeId);
    Anchors(if finalIndex > 0 then Some(reorderedIds[finalIndex - 1]) else None,
            if finalIndex < |reorderedIds| - 1 then Some(reorderedIds[finalIndex + 1]) else None)
  }

  /**
   * Reference definition, in terms of the order BEFORE the move: the elements that the
   * moved element lands between. Moving down (`from < to`) it lands after the element now
   * at `to`; moving up it lands before the element now at `to`.
   */
  function DestinationNeighbors(ids: seq<ID>, from: int, to: int): Anchors
    requires 0 <= from < |ids| && 0 <= to < |ids|
  {
    if from < to then
      Anchors(Some(ids[to]), if to < |ids| - 1 then Some(ids[to + 1]) else None)
    else
      Anchors(if to > 0 then Some(ids[to - 1]) else None, Some(ids[to]))
  }

  /**
   * For ids without repetitions and a real move (`from != to`), the anchors read off the
   * final order are the destination neighbours in the original order; at least one is
   * present, and neither is the moved element.
   */
  lemma FinalAnchorsAreDestinationNeighbors(ids: seq<ID>, from: int, to: int)
    requires Distinct(ids) && 0 <= from < |ids| && 0 <= to < |ids| && from != to
    ensures IndexOf(ArrayMove(ids, from, to), ids[from]) == to
    ensures FinalAnchors(ArrayMove(ids, from, to), ids[from]) == DestinationNeighbors(ids, from, to)
    ensures DestinationNeighbors(ids, from, to).beforeId.Some? ||
            DestinationNeighbors(ids, from, to).afterId.Some?
    ensures DestinationNeighbors(ids, from, to).beforeId != Some(ids[from]) &&
            DestinationNeighbors(ids, from, to).afterId != Some(ids[from])
  {
    var r := ArrayMove(ids, from, to);
    ArrayMoveDistinct(ids, from, to);
    assert IndexOf(r, ids[from]) == to by {
      assert r[to] == ids[from];
    }
    if from < to {
      assert r[to - 1] == ids[to];
      assert to < |ids| - 1 ==> r[to + 1] == ids[to + 1];
    } else {
      assert to > 0 ==> r[to - 1] == ids[to - 1];
      assert r[to + 1] == ids[to];
    }
  }

  /** Moving an element keeps a sequence without repetitions without repetitions. */
  lemma ArrayMoveDistinct<T>(s: seq<T>, from: int, to: int)
    requires Distinct(s) && 0 <= from < |s| && 0 <= to < |s|
    ensures Distinct(ArrayMove(s, from, to))
  {
    var r := ArrayMove(s, from, to);
    forall i, j | 0 <= i < j < |r| ensures r[i] != r[j] {
      var i', j' := Source(from, to, i), Source(from, to, j);
      assert i' != j';
    }
  }
}

=== FILE: types.dfy ===
/** The persisted records: a list, an item inside a list, and the whole store. */
module Types {
  import opened Wrappers

  type ID = string

  datatype ActionList = ActionList(
    id: ID,
    userId: ID,
    title: string,
    orderRank: int,   // sparse integer rank
    version: int,
    updatedAt: string)

  datatype ActionItem = ActionItem(
    id: ID,
    listId: ID,
    title: string,
    description: Option<string>,
    orderRank: int,   // sparse integer rank
    version: int,
    updatedAt: string)

  datatype DB = DB(lists: seq<ActionList>, items: seq<ActionItem>)
}

=== FILE: wrappers.dfy ===
/** Optional values (the source's `undefined`/`null`) and sequence helpers shared by the model. */
module Wrappers {

  datatype Option<+T> = None | Some(value: T)

  /** JavaScript truthiness of an optional string: present and not the empty string. */
  predicate Truthy(s: Option<string>) {
    s.Some? && s.value != ""
  }

  /** Applies `f` to every element, keeping the order. */
  function Map<T, U>(f: T -> U, s: seq<T>): (r: seq<U>)
    ensures |r| == |s| && forall i :: 0 <= i < |s| ==> r[i] == f(s[i])
  {
    seq(|s|, i requires 0 <= i < |s| => f(s[i]))
  }

  /** No value occurs twice in `s`. */
  predicate Distinct<T(==)>(s: seq<T>) {
    forall i, j :: 0 <= i < j < |s| ==> s[i] != s[j]
  }

  /** `Array.prototype.findIndex` against a key: the first index holding `x`, or -1. */
  function IndexOf<T(==)>(s: seq<T>, x: T): (k: int)
    ensures -1 <= k < |s|
    ensures k == -1 <==> x !in s
    ensures 0 <= k ==> s[k] == x && forall j :: 0 <= j < k ==> s[j] != x
  {
    if s == [] then -1
    else if s[0] == x then 0
    else
      var k := IndexOf(s[1..], x);
      if k == -1 then -1 else k + 1
  }
}
